=== FILE: README.md ===
# heavensabove: table rows to fixed-width reports

A Dafny model of the pure core of `heavensabove.py`. The scraper reads the
prediction tables of the heavens-above web service, builds a record from each
table row, and prints the records as fixed-width text for a notification mail.

The model covers three things:

- **Extraction** reads records from a row's cell texts, by position:
  - `Satellite_Pass` reads 11 cells;
  - `Satellite_Pass_Timeset` reads its three values from them;
  - `Iridium_Flare` reads 8 cells.
  Selected fields lose the degree sign U+00B0.
- **Retrieval** is the row loops of `Satellite.retrieve` and `Iridium.retrieve`: every selected row, in document order, becomes one record.
- **Formatting** is the `__str__` methods of `Satellite_Pass_Timeset`, `Satellite_Pass`, `Iridium_Flare`, `Satellite` and `Iridium`. Python's `"{: <n}"` left-justifies a value in a field of width `n`: it pads on the right with spaces and never truncates.

Modules:

| file | module | contents |
|---|---|---|
| wrappers.dfy | `Wrappers` | `Result` |
| text.dfy | `Text` | degree-sign removal (`str.replace`), `PadRight` (`{: <n}`), in-order joining (`output += ...`), decimal rendering of the catalogue number (`{1}`) |
| layout.dfy | `Layout` | a format string as a sequence of `Field(value, width, sep)`, where `sep` is the literal text after the field; the line it renders; lemmas on lengths and columns |
| records.dfy | `Records` | `TimeSet`, `Pass`, `Flare`, `Satellite`, `Iridium` |
| extract.dfy | `Extract` | `ParsePass`, `ParseFlare`, `MakeTimeSet` |
| retrieve.dfy | `Retrieve` | the row loops, as methods |
| report.dfy | `Report` | the `__str__` methods, the three header literals, and the alignment and structure lemmas |
| endtoend.dfy | `EndToEnd` | parse then format; a sample pass row and a sample flare row worked through |

Decisions:

- **Short rows.** The code indexes the cell list without checking its length, so a short row raises `IndexError`. Here that is the explicit error `TooFewCells(needed, got)`. An exception in the loop abandons the whole retrieval. The retrieval methods therefore return all the records, or the first short row's error.
- **Pass azimuths keep their degree sign.** Azimuths might be expected to lose the degree sign too, but in a pass time-set the code strips only the altitude: `alt.replace(...)` at heavensabove.py:75, while `az` is kept as is at heavensabove.py:76. The model follows the code. `EndToEnd.ParsedPassLineKeepsAzimuthDegree` proves that, with strings as sequences of Unicode characters, a degree sign in a pass azimuth cell is carried into the formatted line. Under Python 2 the byte-string format at heavensabove.py:80 would instead raise `UnicodeEncodeError` on that value, so `Satellite.__str__` fails and no report is produced (see "## Left out"). Flares strip altitude, azimuth and sun altitude (heavensabove.py:105, 106, 110).
- **The time-set is 15 characters.** The doc comment "Uses a total of 15 characters" (heavensabove.py:79) is right: 8 + 1 + 2 + 1 + 3 = 15. `Report.TimeSetColumns` proves this when the values fit their widths. `Report.TimeSetLength` gives the length in general.
- **Pass line as one flat format.** `Satellite_Pass.__str__` inserts three time-set texts into its own format string. `Report.PassLineFlat` shows the result equals one flat format over the eleven values: widths 7, 4, (8, 2, 3) three times. The column lemmas use this flat form.
- **Header literals in pieces.** The header literals are written as concatenations of short pieces. The pieces join to exactly the source's literals. Splitting them keeps the verifier's work on them small.
- **Where the pass header's labels sit.** Each label of the satellite report's column header begins at the column where a pass line whose values fit puts that column's value (`Report.PassColumnsAligned`). "Start", "Peak" and "End" stand above the three time-sets (`Report.PassBannerAligned`).
- **Where the flare header's labels sit.** The flare header does not line up that way. "Time", "Mag" and "Al" begin at their values' columns. "Az", "Satellite" and "Dst. Cntr." begin one column to the right of their values. "CMag" and "SAl" begin three columns to the right. The header is 72 characters, while a line whose values fit is 69. `Report.FlareHeaderOffsets` states the exact columns. A value longer than its width moves every later column right (`Layout.FieldAt`), so the header cannot line up with such lines either; this is recorded as an observation rather than as a defect.
- **Deterministic formatting.** Formatting is deterministic: every formatter is a function of the record, so formatting the same records twice gives the same text.

## Model

| member | source | states |
|---|---|---|
| Text.StripDegree | heavensabove.py:75 | `replace(u'\xb0', '')` leaves no degree sign, and a text without one comes back unchanged |
| Text.StripDegreeCounts | heavensabove.py:75 | the text shrinks by exactly the number of degree signs, and every other character occurs exactly as often as before |
| Text.StripDegreeAppend | heavensabove.py:75 | stripping works piecewise: stripping `a + b` is stripping `a`, then `b` |
| Text.StripDegreeDropsGlyph | heavensabove.py:75 | a degree sign anywhere is dropped and the rest is character-identical |
| Text.StripDegreeIdempotent | heavensabove.py:75 | stripping twice is stripping once |
| Text.PadRight | heavensabove.py:80 | `{: <n}`: the result has length max(n, \|s\|), begins with the value, and is spaces after it; nothing is cut |
| Text.PadRightUnique | heavensabove.py:80 | any text with that length, prefix and space padding is the padded value |
| Text.Concat | heavensabove.py:46-47 | no contract of its own: the `output += piece` loop as joining in list order; see Text.ConcatPiece and Text.ConcatCount |
| Text.ConcatPiece | heavensabove.py:46-47 | in the joined text, piece `k` comes right after the pieces before it |
| Text.ConcatCount | heavensabove.py:46-47 | pieces holding one line break each join to text holding one per piece |
| Text.IntToString | heavensabove.py:42-45 | the catalogue number prints as a leading minus exactly for negatives, then decimal digits with no leading zero (only 0 itself starts with `0`) |
| Text.IntToStringRoundTrip | heavensabove.py:42-45 | the printed number reads back as the number |
| Text.IntToStringInjective | heavensabove.py:42-45 | different numbers print differently |
| Layout.Render | heavensabove.py:113 | no contract of its own: `str.format` over left-justified fields; see Layout.RenderLength, Layout.FieldAt, Layout.RenderOmits and Layout.RenderKeeps |
| Layout.RenderLength | heavensabove.py:113 | a formatted line is as long as its fields' padded values and literals together |
| Layout.FieldAt | heavensabove.py:113 | in a formatted line, field `k` has its value at its column, then padding spaces, then its literal |
| Layout.FormatColumn | heavensabove.py:113 | when every value fits, field `k` begins at the column fixed by the widths and literals before it, whatever the values are |
| Layout.FormatLength | heavensabove.py:113 | a line whose values fit has the format's nominal length |
| Layout.FormatFieldAt | heavensabove.py:113 | a line whose values fit has value `k` at nominal column `k` |
| Layout.RenderOmits | heavensabove.py:113 | a non-space character that no value or literal contains does not appear in the line |
| Layout.RenderKeeps | heavensabove.py:113 | every character of every value appears in the line |
| Layout.RenderOneLine | heavensabove.py:113 | break-free values, with "\n" as the last literal only, give exactly one line |
| Extract.MakeTimeSet | heavensabove.py:73-76 | time and azimuth verbatim; the altitude without degree signs |
| Extract.ParsePass | heavensabove.py:53-65 | succeeds exactly when there are at least 11 cells; otherwise the error names 11 and the count. Date and magnitude come from cells 0-1; start, peak and end from cells 2-4, 5-7 and 8-10, unpermuted; only altitudes are stripped |
| Extract.ParseFlare | heavensabove.py:100-110 | succeeds exactly when there are at least 8 cells; otherwise the error names 8 and the count. Cells 0-7 become the fields in declaration order; cells 2, 3 and 7 lose their degree signs |
| Extract.ParsePassIgnoresExtraCells | heavensabove.py:55-65 | cells after the eleventh do not affect the pass |
| Extract.ParseFlareIgnoresExtraCells | heavensabove.py:101-110 | cells after the eighth do not affect the flare |
| Extract.ParsePassRoundTrip | heavensabove.py:57-65 | a pass with degree-free altitudes is recovered from its own values laid out as a row |
| Extract.ParseFlareRoundTrip | heavensabove.py:103-110 | a flare with degree-free angle fields is recovered from its own values laid out as a row |
| Extract.ParsePassSameRecord | heavensabove.py:57-65 | two rows give the same pass exactly when their first 11 cells agree, comparing altitudes after stripping |
| Extract.ParseFlareSameRecord | heavensabove.py:103-110 | two rows give the same flare exactly when their first 8 cells agree, comparing cells 2, 3 and 7 after stripping |
| Retrieve.ParseRows | heavensabove.py:38-39 | one record per row, in row order, exactly when every row parses; otherwise the first failing row's error, with all rows before it parsed |
| Retrieve.RetrievePasses | heavensabove.py:37-39 | `passes[i]` is row `i` parsed and the counts agree, exactly when every row has 11 cells; otherwise the error of the first shorter row |
| Retrieve.RetrieveFlares | heavensabove.py:89-91 | `flares[i]` is row `i` parsed and the counts agree, exactly when every row has 8 cells; otherwise the error of the first shorter row |
| Retrieve.RetrieveSatellite | heavensabove.py:27-39 | exactly when every row has 11 cells, the satellite keeps its name and number and its passes are the rows parsed in order; otherwise the error of the first shorter row, as the constructor's retrieval raises it |
| Retrieve.RetrieveIridium | heavensabove.py:83-91 | exactly when every row has 8 cells, the flares are the rows parsed in order; otherwise the error of the first shorter row |
| Report.TimeSetText | heavensabove.py:78-80 | no contract of its own: `Satellite_Pass_Timeset.__str__`; see Report.TimeSetLength and Report.TimeSetColumns |
| Report.TimeSetLength | heavensabove.py:78-80 | a time-set text is max(8,\|time\|)+1+max(2,\|alt\|)+1+max(3,\|az\|) characters and begins with the time |
| Report.TimeSetColumns | heavensabove.py:78-80 | with values that fit, the text is 15 characters, with the time at column 0, the altitude at 9 and the azimuth at 12 |
| Report.PassLine | heavensabove.py:67-69 | no contract of its own: `Satellite_Pass.__str__`; see Report.PassLineFlat, Report.PassLineShape, Report.PassLineColumns and Report.PassColumnsAligned |
| Report.PassLineFlat | heavensabove.py:67-69 | the pass line, with the time-set texts inserted, equals the flat format over the pass's eleven values |
| Report.PassLineShape | heavensabove.py:67-69 | every pass line begins with the date and ends with a line break; with break-free values that is its only line break |
| Report.PassLineColumns | heavensabove.py:67-69 | with values that fit, the line is 65 characters and each value is at its nominal column |
| Report.PassColumnsAligned | heavensabove.py:42-44 | with values that fit, each value begins where the column header has its label, and the line is as long as the header |
| Report.PassHeaderLabels | heavensabove.py:44 | the column header is 65 characters, with "Date", "Mag" and "Time"/"Al"/"Az" three times at columns 0, 9, 15, 24, 27, 32, 41, 44, 49, 58, 61 |
| Report.PassBannerAligned | heavensabove.py:43 | "Start", "Peak" and "End" begin at the columns of the start, peak and end times |
| Report.FlareLine | heavensabove.py:112-115 | no contract of its own: `Iridium_Flare.__str__`; see Report.FlareLineColumns, Report.FlareLineShape and Report.FlareLineOmitsDegree |
| Report.FlareLineColumns | heavensabove.py:112-115 | with values that fit, a flare line is 69 characters with field `k` at nominal column `k` of the widths 15, 4, 2, 9, 10, 10, 4, 3 |
| Report.FlareLineShape | heavensabove.py:112-115 | every flare line begins with the time and ends with a line break; with break-free values it is exactly one line |
| Report.FlareHeaderOffsets | heavensabove.py:94 | the header's labels begin at 0, 17, 23, 27, 38, 50, 63, 68; the values' nominal columns are 0, 17, 23, 26, 37, 49, 60, 65 |
| Report.PassLineOmitsDegree | heavensabove.py:67-69 | a pass line holds a degree sign only if one of the values does |
| Report.FlareLineOmitsDegree | heavensabove.py:112-115 | a flare line holds a degree sign only if one of the values does |
| Report.DocumentOrder | heavensabove.py:46-47 | line `k` of a report follows the header and the lines before it |
| Report.DocumentLineCount | heavensabove.py:95-96 | a header of `n` lines followed by one-line lines has `n` plus the number of lines |
| Report.SatelliteText | heavensabove.py:41-48 | no contract of its own: `Satellite.__str__`; see Report.SatelliteTextEmpty, Report.SatelliteTextTitle, Report.SatelliteTextOrder and Report.SatelliteTextLineCount |
| Report.SatelliteTextEmpty | heavensabove.py:41-48 | with no passes the report is the header alone |
| Report.SatelliteTextTitle | heavensabove.py:42-45 | the report opens with the title line |
| Report.TitleReads | heavensabove.py:42 | text opening with the title reads as the name, " (", the number (which reads back as the number) and ")" |
| Report.SatelliteTextAppend | heavensabove.py:46-47 | more passes append their lines after the existing report |
| Report.SatelliteTextOrder | heavensabove.py:46-47 | pass `k`'s line follows the header and the lines of passes 0..k-1, in list order |
| Report.SatelliteTextLineCount | heavensabove.py:41-48 | with break-free name and values, the report has 3 header lines plus one line per pass |
| Report.IridiumText | heavensabove.py:93-97 | no contract of its own: `Iridium.__str__`; see Report.IridiumTextEmpty, Report.IridiumTextOrder and Report.IridiumTextLineCount |
| Report.IridiumTextEmpty | heavensabove.py:93-97 | with no flares the report is the header line alone |
| Report.IridiumTextAppend | heavensabove.py:95-96 | more flares append their lines after the existing report |
| Report.IridiumTextOrder | heavensabove.py:95-96 | flare `k`'s line follows the header and the lines of flares 0..k-1 |
| Report.IridiumTextLineCount | heavensabove.py:93-97 | with break-free values, the report has 1 header line plus one line per flare |
| EndToEnd.ParsedPassLineNoDegree | heavensabove.py:60-69 | if no degree sign is in a row's cells other than the altitudes, the printed pass line has none |
| EndToEnd.ParsedPassLineKeepsAzimuthDegree | heavensabove.py:76 | a degree sign in a pass azimuth cell survives into the printed line |
| EndToEnd.ParsedFlareLineNoDegree | heavensabove.py:103-115 | if no degree sign is in a row's cells other than 2, 3 and 7, the printed flare line has none |
| EndToEnd.SamplePassRowParses | heavensabove.py:55-65 | the sample row becomes the pass with times 21:14:00, 21:17:30, 21:21:00 and altitudes 10, 85, 10; its first ten cells alone are too few |
| EndToEnd.SampleFlareRowParses | heavensabove.py:101-110 | the sample flare row becomes its flare with "45", "270" and "-10" stripped; its first seven cells alone are too few |

## Left out

- `HAUtil` and `request_page` (heavensabove.py:6-22) are left out: they are an HTTP GET through `requests` and lenient HTML parsing through lxml.
- Row and cell selection are left out: the XPath query for `clickableRow` rows (heavensabove.py:37, 89), `findall('td')` (heavensabove.py:55, 101) and `text_content()` all belong to the HTML library. A row enters the model as the sequence of its cells' texts.
- The constructors' call to `retrieve` (heavensabove.py:32, 85) is left out as a side effect. Retrieval is a separate method over given rows; the `Satellite` and `Iridium` records are built from its result.
- avocet.py is left out: hardcoded configuration, mail message assembly and the `sendmail` subprocess.
- Python 2's `str`/`unicode` distinction is left out: strings are sequences of Unicode characters, and byte encodings are not modelled. Under Python 2 the byte-string format strings at heavensabove.py:42-44, 68, 80 and 113 (the last three reached from heavensabove.py:47 and 96) encode each value with the ASCII codec, so any non-ASCII value (such as a degree sign left in a pass azimuth) makes the `__str__` raise `UnicodeEncodeError`; the model always produces the text.
- EndToEnd.ParsedPassLineKeepsAzimuthDegree: describes Unicode (Python 3) string semantics, where the degree sign is carried into the line; under Python 2 the `__str__` raises `UnicodeEncodeError` for any non-ASCII value, this one included, and prints nothing.
- Report.PassLineColumns: states columns only for values that fit their widths. A longer value shifts every later column by its excess; `Layout.FieldAt` and `Layout.RenderLength` cover that general case.
- Report.FlareLineColumns: states columns only for values that fit their widths, for the same reason.
- Report.SatelliteTextLineCount: assumes the name and the values hold no line break. The code does not check this, and a value with a line break adds lines.

=== FILE: endtoend.dfy ===
/** From table cells to report lines: what parsing followed by formatting
    does to the degree sign, and the row of each kind worked through. */
module EndToEnd {
  import opened Text
  import opened Wrappers
  import opened Layout
  import opened Records
  import opened Extract
  import opened Report

  /** A parsed pass row whose other cells carry no degree sign renders to a
      line without one: the altitudes lost theirs when parsed. */
  lemma ParsedPassLineNoDegree(cells: seq<string>)
    requires |cells| >= PassCellCount
    requires forall i :: 0 <= i < PassCellCount && !PassAngleCell(i) ==> DEGREE !in cells[i]
    ensures ParsePass(cells).Ok? && DEGREE !in PassLine(ParsePass(cells).value)
  {
    var p := ParsePass(cells).value;
    forall i | 0 <= i < PassCellCount
      ensures DEGREE !in PassValues(p)[i]
    {
    }
    PassLineOmitsDegree(p);
  }

  /** A degree sign in an azimuth cell of a pass row is kept by parsing and
      reaches the line. */
  lemma ParsedPassLineKeepsAzimuthDegree(cells: seq<string>, k: nat)
    requires |cells| >= PassCellCount
    requires k == 4 || k == 7 || k == 10
    requires DEGREE in cells[k]
    ensures ParsePass(cells).Ok? && DEGREE in PassLine(ParsePass(cells).value)
  {
    var p := ParsePass(cells).value;
    var g := Format(PassValues(p), PassWidths, PassSeps);
    assert g[k].value == cells[k];
    RenderKeeps(g, k, DEGREE);
    PassLineFlat(p);
  }

  /** A parsed flare row whose other cells carry no degree sign renders to a
      line without one. */
  lemma ParsedFlareLineNoDegree(cells: seq<string>)
    requires |cells| >= FlareCellCount
    requires forall i :: 0 <= i < FlareCellCount && !FlareAngleCell(i) ==> DEGREE !in cells[i]
    ensures ParseFlare(cells).Ok? && DEGREE !in FlareLine(ParseFlare(cells).value)
  {
    var f := ParseFlare(cells).value;
    forall i | 0 <= i < FlareCellCount
      ensures DEGREE !in FlareValues(f)[i]
    {
    }
    FlareLineOmitsDegree(f);
  }

  lemma StripTrailingDegree(s: string)
    requires DEGREE !in s
    ensures StripDegree(s + [DEGREE]) == s
  {
    assert s + [DEGREE] == s + [DEGREE] + "";
    StripDegreeDropsGlyph(s, "");
    assert s + "" == s;
  }

  /** A pass row as the prediction table gives it: degree signs on the altitudes. */
  const SamplePassRow: seq<string> :=
    ["12 Jan", "-1.5", "21:14:00", "10" + [DEGREE], "N", "21:17:30", "85" + [DEGREE], "NE",
     "21:21:00", "10" + [DEGREE], "E"]

  /** The row parses to the pass whose start, peak and end are cells 2-4, 5-7
      and 8-10 with the altitudes' degree signs gone; the first ten cells
      alone are too few. */
  lemma SamplePassRowParses()
    ensures ParsePass(SamplePassRow) ==
      Ok(Pass("12 Jan", "-1.5", TimeSet("21:14:00", "10", "N"), TimeSet("21:17:30", "85", "NE"),
              TimeSet("21:21:00", "10", "E")))
    ensures ParsePass(SamplePassRow[..10]) == Err(TooFewCells(11, 10))
  {
    StripTrailingDegree("10");
    StripTrailingDegree("85");
  }

  /** A flare row with degree signs on altitude, azimuth and sun altitude. */
  const SampleFlareRow: seq<string> :=
    ["04:32:11", "-3", "45" + [DEGREE], "270" + [DEGREE], "Iridium 33", "12 km", "2.1", "-10" + [DEGREE]]

  lemma SampleFlareRowParses()
    ensures ParseFlare(SampleFlareRow) ==
      Ok(Flare("04:32:11", "-3", "45", "270", "Iridium 33", "12 km", "2.1", "-10"))
    ensures ParseFlare(SampleFlareRow[..7]) == Err(TooFewCells(8, 7))
  {
    StripTrailingDegree("45");
    StripTrailingDegree("270");
    StripTrailingDegree("-10");
  }
}

=== FILE: extract.dfy ===
/** Building records from the text of a table row's cells, read by position.
    The Python code indexes the cell list without checking its length, so a
    short row raises IndexError; here that is the explicit error `TooFewCells`. */
module Extract {
  import opened Text
  import opened Wrappers
  import opened Records

  /** A row had fewer cells than the record reads. */
  datatype ParseError = TooFewCells(needed: nat, got: nat)

  /** Cells a pass row must have: date, magnitude and three time-sets of three. */
  const PassCellCount: nat := 11

  /** Cells a flare row must have. */
  const FlareCellCount: nat := 8

  /** Cells of a pass row whose degree sign is removed: the three altitudes. */
  predicate PassAngleCell(i: int)
  {
    i == 3 || i == 6 || i == 9
  }

  /** Cells of a flare row whose degree sign is removed: altitude, azimuth, sun altitude. */
  predicate FlareAngleCell(i: int)
  {
    i == 2 || i == 3 || i == 7
  }

  /** A pass as parsing produces it: no degree sign in any altitude. */
  predicate PassWellFormed(p: Pass)
  {
    forall i :: 0 <= i < PassCellCount && PassAngleCell(i) ==> DEGREE !in PassValues(p)[i]
  }

  /** A flare as parsing produces it: no degree sign in the stripped fields. */
  predicate FlareWellFormed(f: Flare)
  {
    forall i :: 0 <= i < FlareCellCount && FlareAngleCell(i) ==> DEGREE !in FlareValues(f)[i]
  }

  /** `Satellite_Pass_Timeset(time, alt, az)`: only the altitude loses its
      degree signs; time and azimuth are kept exactly as given. */
  function MakeTimeSet(time: string, alt: string, az: string): (t: TimeSet)
    ensures t.time == time && t.az == az
    ensures t.alt == StripDegree(alt)
  {
    TimeSet(time, StripDegree(alt), az)
  }

  /** `Satellite_Pass(row)`: date and magnitude from cells 0 and 1, then the
      start, peak and end time-sets from cells 2-4, 5-7 and 8-10. */
  function ParsePass(cells: seq<string>): (r: Result<Pass, ParseError>)
    ensures r.Ok? <==> |cells| >= PassCellCount
    ensures r.Err? ==> r.error == TooFewCells(PassCellCount, |cells|)
    ensures r.Ok? ==> PassWellFormed(r.value)
    ensures r.Ok? ==> forall i :: 0 <= i < PassCellCount ==>
              PassValues(r.value)[i] == (if PassAngleCell(i) then StripDegree(cells[i]) else cells[i])
  {
    if |cells| < PassCellCount then
      Err(TooFewCells(PassCellCount, |cells|))
    else
      Ok(Pass(cells[0], cells[1],
              MakeTimeSet(cells[2], cells[3], cells[4]),
              MakeTimeSet(cells[5], cells[6], cells[7]),
              MakeTimeSet(cells[8], cells[9], cells[10])))
  }

  /** `Iridium_Flare(row)`: the eight cells in order, with the degree sign
      removed from altitude, azimuth and sun altitude. */
  function ParseFlare(cells: seq<string>): (r: Result<Flare, ParseError>)
    ensures r.Ok? <==> |cells| >= FlareCellCount
    ensures r.Err? ==> r.error == TooFewCells(FlareCellCount, |cells|)
    ensures r.Ok? ==> FlareWellFormed(r.value)
    ensures r.Ok? ==> forall i :: 0 <= i < FlareCellCount ==>
              FlareValues(r.value)[i] == (if FlareAngleCell(i) then StripDegree(cells[i]) else cells[i])
  {
    if |cells| < FlareCellCount then
      Err(TooFewCells(FlareCellCount, |cells|))
    else
      Ok(Flare(cells[0], cells[1], StripDegree(cells[2]), StripDegree(cells[3]),
               cells[4], cells[5], cells[6], StripDegree(cells[7])))
  }

  /** Cells after the eleventh do not influence the pass. */
  lemma ParsePassIgnoresExtraCells(cells: seq<string>, extra: seq<string>)
    requires |cells| >= PassCellCount
    ensures ParsePass(cells + extra) == ParsePass(cells)
    ensures ParsePass(cells) == ParsePass(cells[..PassCellCount])
  {
    assert forall i :: 0 <= i < PassCellCount ==> (cells + extra)[i] == cells[i] == cells[..PassCellCount][i];
  }

  /** Cells after the eighth do not influence the flare. */
  lemma ParseFlareIgnoresExtraCells(cells: seq<string>, extra: seq<string>)
    requires |cells| >= FlareCellCount
    ensures ParseFlare(cells + extra) == ParseFlare(cells)
    ensures ParseFlare(cells) == ParseFlare(cells[..FlareCellCount])
  {
    assert forall i :: 0 <= i < FlareCellCount ==> (cells + extra)[i] == cells[i] == cells[..FlareCellCount][i];
  }

  /** A pass without degree signs in its altitudes is recovered from its own
      values laid out as a row: parsing inverts the cell layout. */
  lemma ParsePassRoundTrip(p: Pass)
    requires PassWellFormed(p)
    ensures ParsePass(PassValues(p)) == Ok(p)
  {
    var vs := PassValues(p);
    assert DEGREE !in vs[3] && DEGREE !in vs[6] && DEGREE !in vs[9];
  }

  /** A flare without degree signs in its angle fields is recovered from its
      own values laid out as a row. */
  lemma ParseFlareRoundTrip(f: Flare)
    requires FlareWellFormed(f)
    ensures ParseFlare(FlareValues(f)) == Ok(f)
  {
    var vs := FlareValues(f);
    assert DEGREE !in vs[2] && DEGREE !in vs[3] && DEGREE !in vs[7];
  }

  /** Two rows parse to the same pass exactly when their first eleven cells
      agree after the altitudes lose their degree signs. */
  lemma ParsePassSameRecord(a: seq<string>, b: seq<string>)
    requires |a| >= PassCellCount && |b| >= PassCellCount
    ensures ParsePass(a) == ParsePass(b) <==>
      forall i :: 0 <= i < PassCellCount ==>
        (if PassAngleCell(i) then StripDegree(a[i]) == StripDegree(b[i]) else a[i] == b[i])
  {
    var pa, pb := ParsePass(a).value, ParsePass(b).value;
    if forall i :: 0 <= i < PassCellCount ==>
         (if PassAngleCell(i) then StripDegree(a[i]) == StripDegree(b[i]) else a[i] == b[i]) {
      assert PassValues(pa) == PassValues(pb);
    }
  }

  /** Two rows parse to the same flare exactly when their first eight cells
      agree once altitude, azimuth and sun altitude lose their degree signs. */
  lemma ParseFlareSameRecord(a: seq<string>, b: seq<string>)
    requires |a| >= FlareCellCount && |b| >= FlareCellCount
    ensures ParseFlare(a) == ParseFlare(b) <==>
      forall i :: 0 <= i < FlareCellCount ==>
        (if FlareAngleCell(i) then StripDegree(a[i]) == StripDegree(b[i]) else a[i] == b[i])
  {
    var fa, fb := ParseFlare(a).value, ParseFlare(b).value;
    if forall i :: 0 <= i < FlareCellCount ==>
         (if FlareAngleCell(i) then StripDegree(a[i]) == StripDegree(b[i]) else a[i] == b[i]) {
      assert FlareValues(fa) == FlareValues(fb);
    }
  }
}

=== FILE: layout.dfy ===
/** Fixed-width text lines as Python's str.format builds them from a format
    string of left-justified replacement fields such as "{0: <7}  {1: <4}". */
module Layout {
  import opened Text

  /** One replacement field `{: <width}` with the value put into it, and
      `sep`, the literal text written after it in the format string. A field
      written without a width (`{2}`) has width 0. */
  datatype Field = Field(value: string, width: nat, sep: string)

  /** The characters a field takes up: its padded value and the literal after it. */
  function Span(f: Field): nat
  {
    Max(f.width, |f.value|) + |f.sep|
  }

  /** The text a field contributes to the line. */
  function Piece(f: Field): string
  {
    PadRight(f.value, f.width) + f.sep
  }

  function Pieces(fs: seq<Field>): (ps: seq<string>)
    ensures |ps| == |fs|
  {
    seq(|fs|, i requires 0 <= i < |fs| => Piece(fs[i]))
  }

  /** The formatted line: every field padded, in order, with its literal text. */
  function Render(fs: seq<Field>): string
  {
    Concat(Pieces(fs))
  }

  /** Sum of the spans of the fields: where the next field would begin. */
  function Offset(fs: seq<Field>): nat
  {
    if |fs| == 0 then 0 else Offset(fs[..|fs| - 1]) + Span(fs[|fs| - 1])
  }

  /** Column at which field `k` begins in the rendered line. */
  function Column(fs: seq<Field>, k: nat): nat
    requires k <= |fs|
  {
    Offset(fs[..k])
  }

  /** Fields with the given values, widths and literals, in order: one
      format string applied to one record's values. */
  function Format(values: seq<string>, widths: seq<nat>, seps: seq<string>): (fs: seq<Field>)
    requires |values| == |widths| == |seps|
    ensures |fs| == |values|
  {
    seq(|values|, i requires 0 <= i < |values| => Field(values[i], widths[i], seps[i]))
  }

  /** Column of field `k` when every value fits: the widths and literals before it. */
  function NominalColumn(widths: seq<nat>, seps: seq<string>, k: nat): nat
    requires k <= |widths| == |seps|
  {
    if k == 0 then 0 else NominalColumn(widths, seps, k - 1) + widths[k - 1] + |seps[k - 1]|
  }

  /** Every value fits its field, so nothing pushes later columns to the right. */
  predicate Fits(fs: seq<Field>)
  {
    forall i :: 0 <= i < |fs| ==> |fs[i].value| <= fs[i].width
  }

  lemma PiecesAppend(a: seq<Field>, b: seq<Field>)
    ensures Pieces(a + b) == Pieces(a) + Pieces(b)
  {
    assert forall i :: 0 <= i < |a + b| ==> Pieces(a + b)[i] == (Pieces(a) + Pieces(b))[i];
  }

  /** Formatting is piecewise: rendering two runs of fields is rendering each in turn. */
  lemma RenderAppend(a: seq<Field>, b: seq<Field>)
    ensures Render(a + b) == Render(a) + Render(b)
  {
    PiecesAppend(a, b);
    ConcatAppend(Pieces(a), Pieces(b));
  }

  lemma RenderSnoc(fs: seq<Field>, f: Field)
    ensures Render(fs + [f]) == Render(fs) + Piece(f)
  {
    PiecesAppend(fs, [f]);
    assert Pieces([f]) == [Piece(f)];
    ConcatSnoc(Pieces(fs), Piece(f));
  }

  /** A rendered line is exactly as long as its fields' spans together. */
  lemma {:induction false} RenderLength(fs: seq<Field>)
    ensures |Render(fs)| == Offset(fs)
    decreases |fs|
  {
    if |fs| > 0 {
      var init, last := fs[..|fs| - 1], fs[|fs| - 1];
      assert fs == init + [last];
      RenderSnoc(init, last);
      RenderLength(init);
    }
  }

  /** Field `k` of a line: its value starts at `Column(fs, k)`, spaces pad it
      to the field width, and the literal text follows. */
  lemma FieldAt(fs: seq<Field>, k: nat)
    requires k < |fs|
    ensures Column(fs, k) + Span(fs[k]) <= |Render(fs)|
    ensures Render(fs)[Column(fs, k)..Column(fs, k) + |fs[k].value|] == fs[k].value
    ensures forall i :: Column(fs, k) + |fs[k].value| <= i < Column(fs, k) + Max(fs[k].width, |fs[k].value|)
                        ==> Render(fs)[i] == ' '
    ensures Render(fs)[Column(fs, k) + Max(fs[k].width, |fs[k].value|)..Column(fs, k) + Span(fs[k])] == fs[k].sep
  {
    var f := fs[k];
    var before, rest := fs[..k], fs[k + 1..];
    assert fs == before + [f] + rest;
    RenderAppend(before + [f], rest);
    RenderSnoc(before, f);
    RenderLength(before);
    var c := |Render(before)|;
    var line := Render(fs);
    assert line == Render(before) + Piece(f) + Render(rest);
    var pad := PadRight(f.value, f.width);
    assert line[c..c + |pad|] == pad;
    assert line[c + |pad|..c + |pad| + |f.sep|] == f.sep;
    assert line[c..c + |f.value|] == pad[..|f.value|];
  }

  /** The value of field `k` begins at `Column(fs, k)`. */
  lemma FieldValueAt(fs: seq<Field>, k: nat)
    requires k < |fs|
    ensures Column(fs, k) + |fs[k].value| <= |Render(fs)|
    ensures Render(fs)[Column(fs, k)..Column(fs, k) + |fs[k].value|] == fs[k].value
  {
    FieldAt(fs, k);
  }

  lemma ColumnNext(fs: seq<Field>, k: nat)
    requires k < |fs|
    ensures Column(fs, k + 1) == Column(fs, k) + Span(fs[k])
  {
    assert fs[..k + 1][..k] == fs[..k];
  }

  /** When every value fits, field `k` begins at its nominal column, whatever the values are. */
  lemma {:induction false} FormatColumn(values: seq<string>, widths: seq<nat>, seps: seq<string>, k: nat)
    requires |values| == |widths| == |seps| && k <= |values|
    requires Fits(Format(values, widths, seps))
    ensures Column(Format(values, widths, seps), k) == NominalColumn(widths, seps, k)
    decreases k
  {
    var fs := Format(values, widths, seps);
    if k == 0 {
      assert fs[..0] == [];
    } else {
      FormatColumn(values, widths, seps, k - 1);
      ColumnNext(fs, k - 1);
    }
  }

  /** A line formatted from values that fit is exactly as long as the widths
      and literals of its format string together. */
  lemma FormatLength(values: seq<string>, widths: seq<nat>, seps: seq<string>)
    requires |values| == |widths| == |seps|
    requires Fits(Format(values, widths, seps))
    ensures |Render(Format(values, widths, seps))| == NominalColumn(widths, seps, |values|)
  {
    var fs := Format(values, widths, seps);
    FormatColumn(values, widths, seps, |values|);
    assert fs[..|fs|] == fs;
    RenderLength(fs);
  }

  /** In a line formatted from values that fit, value `k` begins at the
      nominal column `k` of the format string, whatever the values are: lines
      formatted with the same format string keep their columns aligned. */
  lemma FormatFieldAt(values: seq<string>, widths: seq<nat>, seps: seq<string>, k: nat)
    requires |values| == |widths| == |seps| && k < |values|
    requires Fits(Format(values, widths, seps))
    ensures NominalColumn(widths, seps, k) + |values[k]| <= |Render(Format(values, widths, seps))|
    ensures Render(Format(values, widths, seps))[NominalColumn(widths, seps, k)..NominalColumn(widths, seps, k) + |values[k]|]
            == values[k]
  {
    var fs := Format(values, widths, seps);
    FormatColumn(values, widths, seps, k);
    FieldValueAt(fs, k);
    assert fs[k].value == values[k];
  }

  /** A character other than the padding space that no value or literal
      contains does not appear in the line. */
  lemma {:induction false} RenderOmits(fs: seq<Field>, c: char)
    requires c != ' '
    requires forall i :: 0 <= i < |fs| ==> c !in fs[i].value && c !in fs[i].sep
    ensures c !in Render(fs)
    decreases |fs|
  {
    if |fs| > 0 {
      var init, last := fs[..|fs| - 1], fs[|fs| - 1];
      assert fs == init + [last];
      RenderSnoc(init, last);
      RenderOmits(init, c);
      PadOmits(last.value, last.width, c);
    }
  }

  /** Every character of every value appears in the line: nothing is cut. */
  lemma RenderKeeps(fs: seq<Field>, k: nat, c: char)
    requires k < |fs| && c in fs[k].value
    ensures c in Render(fs)
  {
    FieldValueAt(fs, k);
    var col := Column(fs, k);
    var j :| 0 <= j < |fs[k].value| && fs[k].value[j] == c;
    assert Render(fs)[col..col + |fs[k].value|][j] == c;
  }

  lemma PadOmits(s: string, n: nat, c: char)
    requires c != ' ' && c !in s
    ensures c !in PadRight(s, n)
  {
    var p := PadRight(s, n);
    forall i | 0 <= i < |p|
      ensures p[i] != c
    {
      if i < |s| {
        assert p[i] == p[..|s|][i];
      }
    }
  }

  /** A line whose last literal is the only line break in it. */
  predicate OneLine(s: string)
  {
    |s| > 0 && s[|s| - 1] == '\n' && '\n' !in s[..|s| - 1]
  }

  /** Text free of line breaks put before a line leaves one line. */
  lemma OneLineAfter(a: string, b: string)
    requires '\n' !in a && OneLine(b)
    ensures OneLine(a + b)
  {
    assert (a + b)[..|a + b| - 1] == a + b[..|b| - 1];
  }

  /** A line holds exactly one line break. */
  lemma OneLineCount(s: string)
    requires OneLine(s)
    ensures Occurrences(s, '\n') == 1
  {
    assert s == s[..|s| - 1] + [s[|s| - 1]];
    OccurrencesAppend(s[..|s| - 1], [s[|s| - 1]], '\n');
    OccurrencesAbsent(s[..|s| - 1], '\n');
  }

  /** Fields free of line breaks, the last one followed by "\n": one text line. */
  lemma RenderOneLine(fs: seq<Field>)
    requires |fs| > 0 && fs[|fs| - 1].sep == "\n"
    requires forall i :: 0 <= i < |fs| ==> '\n' !in fs[i].value
    requires forall i :: 0 <= i < |fs| - 1 ==> '\n' !in fs[i].sep
    ensures OneLine(Render(fs))
  {
    var init, last := fs[..|fs| - 1], fs[|fs| - 1];
    assert fs == init + [last];
    RenderSnoc(init, last);
    RenderOmits(init, '\n');
    PadOmits(last.value, last.width, '\n');
    var line := Render(fs);
    assert line == Render(init) + PadRight(last.value, last.width) + "\n";
    assert line[..|line| - 1] == Render(init) + PadRight(last.value, last.width);
  }
}

=== FILE: records.dfy ===
/** The records the scraper builds. Every field is display text taken from
    a table cell; nothing is parsed into a number or a time. */
module Records {

  /** `Satellite_Pass_Timeset`: the time, altitude and azimuth of one moment of a pass. */
  datatype TimeSet = TimeSet(time: string, alt: string, az: string)

  /** `Satellite_Pass`: one visible pass, with its start, highest point and end. */
  datatype Pass = Pass(date: string, mag: string, start: TimeSet, peak: TimeSet, end: TimeSet)

  /** `Iridium_Flare`: one predicted flare. */
  datatype Flare = Flare(time: string, mag: string, alt: string, az: string, sat: string,
                         centerDist: string, centerMag: string, sunAlt: string)

  /** `Satellite`: a satellite's display name, catalogue number and its passes in table order. */
  datatype Satellite = Satellite(name: string, number: int, passes: seq<Pass>)

  /** `Iridium`: the flares in table order. */
  datatype Iridium = Iridium(flares: seq<Flare>)

  /** The eleven display values of a pass, in the order of the table's cells. */
  function PassValues(p: Pass): seq<string>
  {
    [p.date, p.mag,
     p.start.time, p.start.alt, p.start.az,
     p.peak.time, p.peak.alt, p.peak.az,
     p.end.time, p.end.alt, p.end.az]
  }

  /** The eight display values of a flare, in the order of the table's cells. */
  function FlareValues(f: Flare): seq<string>
  {
    [f.time, f.mag, f.alt, f.az, f.sat, f.centerDist, f.centerMag, f.sunAlt]
  }
}

=== FILE: report.dfy ===
/** The `__str__` methods: each record becomes one fixed-width line, and a
    satellite or the flare list becomes a header followed by its lines in
    list order. */
module Report {
  import opened Text
  import opened Layout
  import opened Records

  // ---------------------------------------------------------------------
  // Format strings
  // ---------------------------------------------------------------------

  /** "{0: <8} {1: <2} {2: <3}": time, altitude, azimuth. */
  const TimeSetWidths: seq<nat> := [8, 2, 3]
  const TimeSetSeps: seq<string> := [" ", " ", ""]

  /** "{0: <15}  {1: <4}  {2: <2} {3: <9}  {4: <10}  {5: <10} {6: <4} {7: <3}\n":
      the flare's fields in declaration order. */
  const FlareWidths: seq<nat> := [15, 4, 2, 9, 10, 10, 4, 3]
  const FlareSeps: seq<string> := ["  ", "  ", " ", "  ", "  ", " ", " ", "\n"]

  /** The pass line written out as one flat format over its eleven values:
      date, magnitude, then time, altitude and azimuth three times. */
  const PassWidths: seq<nat> := [7, 4, 8, 2, 3, 8, 2, 3, 8, 2, 3]
  const PassSeps: seq<string> := ["  ", "  ", " ", " ", "  ", " ", " ", "  ", " ", " ", "\n"]

  // ---------------------------------------------------------------------
  // Record lines
  // ---------------------------------------------------------------------

  function TimeSetFields(t: TimeSet): seq<Field>
  {
    Format([t.time, t.alt, t.az], TimeSetWidths, TimeSetSeps)
  }

  /** `str(Satellite_Pass_Timeset)`. */
  function TimeSetText(t: TimeSet): string
  {
    Render(TimeSetFields(t))
  }

  /** "{0: <7}  {1: <4}  {2}  {3}  {4}\n": date and magnitude, then the three
      time-set texts inserted as they are. */
  function PassFields(p: Pass): seq<Field>
  {
    [Field(p.date, 7, "  "), Field(p.mag, 4, "  "),
     Field(TimeSetText(p.start), 0, "  "),
     Field(TimeSetText(p.peak), 0, "  "),
     Field(TimeSetText(p.end), 0, "\n")]
  }

  /** `str(Satellite_Pass)`. */
  function PassLine(p: Pass): string
  {
    Render(PassFields(p))
  }

  function FlareFields(f: Flare): seq<Field>
  {
    Format(FlareValues(f), FlareWidths, FlareSeps)
  }

  /** `str(Iridium_Flare)`. */
  function FlareLine(f: Flare): string
  {
    Render(FlareFields(f))
  }

  // ---------------------------------------------------------------------
  // Reports
  // ---------------------------------------------------------------------

  /** Second header line of a satellite report. The literal is written in
      pieces that end where the columns of a pass line end. */
  const PassBanner: string := "               " + "Start            " + "Peak             " + "End\n"

  /** Column labels of a satellite report, in pieces one per column. */
  const PassColumnHeader: string :=
    "Date     " + "Mag   " + "Time     " + "Al " + "Az   " + "Time     " + "Al " + "Az   "
    + "Time     " + "Al " + "Az \n"

  /** The labels of the eleven pass columns. */
  const PassLabels: seq<string> := ["Date", "Mag", "Time", "Al", "Az", "Time", "Al", "Az", "Time", "Al", "Az"]

  /** The whole header of the flare report, in pieces one per label. */
  const FlareColumnHeader: string :=
    "Time             " + "Mag   " + "Al  " + "Az         " + "Satellite   " + "Dst. Cntr.   " + "CMag " + "SAl\n"

  /** First header line: the satellite's name and catalogue number. */
  function SatelliteTitle(name: string, number: int): string
  {
    name + " (" + IntToString(number) + ")\n"
  }

  function SatelliteHeader(name: string, number: int): string
  {
    SatelliteTitle(name, number) + PassBanner + PassColumnHeader
  }

  /** One line per record, in list order. */
  function EachLine<T>(xs: seq<T>, line: T -> string): (ls: seq<string>)
    ensures |ls| == |xs|
  {
    seq(|xs|, i requires 0 <= i < |xs| => line(xs[i]))
  }

  function PassLines(ps: seq<Pass>): (ls: seq<string>)
    ensures |ls| == |ps|
  {
    EachLine(ps, PassLine)
  }

  function FlareLines(fs: seq<Flare>): (ls: seq<string>)
    ensures |ls| == |fs|
  {
    EachLine(fs, FlareLine)
  }

  /** A report as both `__str__` methods build it: the header, then each
      line appended in turn. */
  function Document(header: string, lines: seq<string>): string
  {
    header + Concat(lines)
  }

  /** `str(Satellite)`: the header, then one line per pass in list order. */
  function SatelliteText(s: Satellite): string
  {
    Document(SatelliteHeader(s.name, s.number), PassLines(s.passes))
  }

  /** `str(Iridium)`: the column header, then one line per flare in list order. */
  function IridiumText(ir: Iridium): string
  {
    Document(FlareColumnHeader, FlareLines(ir.flares))
  }

  // ---------------------------------------------------------------------
  // Widths and columns
  // ---------------------------------------------------------------------

  /** Every value of a time-set fits its nominal width. */
  predicate TimeSetFits(t: TimeSet)
  {
    |t.time| <= 8 && |t.alt| <= 2 && |t.az| <= 3
  }

  /** Every value of a pass fits its nominal width. */
  predicate PassFits(p: Pass)
  {
    Fits(Format(PassValues(p), PassWidths, PassSeps))
  }

  /** Every value of a flare fits its nominal width. */
  predicate FlareFits(f: Flare)
  {
    Fits(FlareFields(f))
  }

  /** A time-set text takes max(8,|time|) + 1 + max(2,|alt|) + 1 + max(3,|az|)
      characters, since each value is padded to its width and never cut, and
      it begins with the time. */
  lemma TimeSetLength(t: TimeSet)
    ensures |TimeSetText(t)| == Max(8, |t.time|) + 1 + Max(2, |t.alt|) + 1 + Max(3, |t.az|)
    ensures TimeSetText(t)[..|t.time|] == t.time
  {
    var fs := TimeSetFields(t);
    RenderLength(fs);
    assert fs[..0] == [] && fs[..3] == fs;
    ColumnNext(fs, 0);
    ColumnNext(fs, 1);
    ColumnNext(fs, 2);
    FieldValueAt(fs, 0);
  }

  /** With values that fit, a time-set text is the 15 characters its doc
      comment promises, with the time at column 0, the altitude at column 9
      and the azimuth at column 12. */
  lemma TimeSetColumns(t: TimeSet)
    requires TimeSetFits(t)
    ensures |TimeSetText(t)| == 15
    ensures TimeSetText(t)[0..|t.time|] == t.time
    ensures TimeSetText(t)[9..9 + |t.alt|] == t.alt
    ensures TimeSetText(t)[12..12 + |t.az|] == t.az
  {
    var vs := [t.time, t.alt, t.az];
    assert Fits(TimeSetFields(t));
    FormatLength(vs, TimeSetWidths, TimeSetSeps);
    FormatFieldAt(vs, TimeSetWidths, TimeSetSeps, 0);
    FormatFieldAt(vs, TimeSetWidths, TimeSetSeps, 1);
    FormatFieldAt(vs, TimeSetWidths, TimeSetSeps, 2);
  }

  /** A time-set followed by the literal `sep` renders as its text then `sep`. */
  lemma TimeSetThen(t: TimeSet, sep: string)
    ensures Render([Field(t.time, 8, " "), Field(t.alt, 2, " "), Field(t.az, 3, sep)]) == TimeSetText(t) + sep
  {
    var fs := TimeSetFields(t);
    var head := [Field(t.time, 8, " "), Field(t.alt, 2, " ")];
    assert fs == head + [Field(t.az, 3, "")];
    assert [Field(t.time, 8, " "), Field(t.alt, 2, " "), Field(t.az, 3, sep)] == head + [Field(t.az, 3, sep)];
    RenderSnoc(head, Field(t.az, 3, ""));
    RenderSnoc(head, Field(t.az, 3, sep));
  }

  /** The pass line, built by inserting the time-set texts into the outer
      format, is the flat format of the pass's eleven values. */
  lemma PassLineFlat(p: Pass)
    ensures PassLine(p) == Render(Format(PassValues(p), PassWidths, PassSeps))
  {
    var g := Format(PassValues(p), PassWidths, PassSeps);
    var fs := PassFields(p);
    assert g == g[..2] + g[2..5] + g[5..8] + g[8..];
    assert g[..2] == fs[..2];
    assert g[2..5] == [Field(p.start.time, 8, " "), Field(p.start.alt, 2, " "), Field(p.start.az, 3, "  ")];
    assert g[5..8] == [Field(p.peak.time, 8, " "), Field(p.peak.alt, 2, " "), Field(p.peak.az, 3, "  ")];
    assert g[8..] == [Field(p.end.time, 8, " "), Field(p.end.alt, 2, " "), Field(p.end.az, 3, "\n")];
    RenderAppend(g[..2] + g[2..5] + g[5..8], g[8..]);
    RenderAppend(g[..2] + g[2..5], g[5..8]);
    RenderAppend(g[..2], g[2..5]);
    TimeSetThen(p.start, "  ");
    TimeSetThen(p.peak, "  ");
    TimeSetThen(p.end, "\n");
    assert fs == fs[..2] + [fs[2]] + [fs[3]] + [fs[4]];
    RenderSnoc(fs[..2], fs[2]);
    RenderSnoc(fs[..2] + [fs[2]], fs[3]);
    RenderSnoc(fs[..2] + [fs[2]] + [fs[3]], fs[4]);
    assert PadRight(TimeSetText(p.start), 0) == TimeSetText(p.start);
    assert PadRight(TimeSetText(p.peak), 0) == TimeSetText(p.peak);
    assert PadRight(TimeSetText(p.end), 0) == TimeSetText(p.end);
  }

  /** The columns at which the pass format puts its eleven values when they fit. */
  lemma PassNominalColumns()
    ensures NominalColumn(PassWidths, PassSeps, 0) == 0
    ensures NominalColumn(PassWidths, PassSeps, 1) == 9
    ensures NominalColumn(PassWidths, PassSeps, 2) == 15
    ensures NominalColumn(PassWidths, PassSeps, 3) == 24
    ensures NominalColumn(PassWidths, PassSeps, 4) == 27
    ensures NominalColumn(PassWidths, PassSeps, 5) == 32
    ensures NominalColumn(PassWidths, PassSeps, 6) == 41
    ensures NominalColumn(PassWidths, PassSeps, 7) == 44
    ensures NominalColumn(PassWidths, PassSeps, 8) == 49
    ensures NominalColumn(PassWidths, PassSeps, 9) == 58
    ensures NominalColumn(PassWidths, PassSeps, 10) == 61
    ensures NominalColumn(PassWidths, PassSeps, 11) == 65
  {
  }

  /** The labels of the satellite report's column header and where they begin. */
  lemma PassHeaderLabels()
    ensures |PassColumnHeader| == 65
    ensures PassColumnHeader[0..4] == "Date"
    ensures PassColumnHeader[9..12] == "Mag"
    ensures PassColumnHeader[15..19] == "Time"
    ensures PassColumnHeader[24..26] == "Al"
    ensures PassColumnHeader[27..29] == "Az"
    ensures PassColumnHeader[32..36] == "Time"
    ensures PassColumnHeader[41..43] == "Al"
    ensures PassColumnHeader[44..46] == "Az"
    ensures PassColumnHeader[49..53] == "Time"
    ensures PassColumnHeader[58..60] == "Al"
    ensures PassColumnHeader[61..63] == "Az"
  {
    PassHeaderLabel0();
    PassHeaderLabel1();
    PassHeaderLabel2();
    PassHeaderLabel3();
    PassHeaderLabel4();
    PassHeaderLabel5();
    PassHeaderLabel6();
    PassHeaderLabel7();
    PassHeaderLabel8();
    PassHeaderLabel9();
    PassHeaderLabel10();
  }

  // One lemma per label of the header: each checks one slice of the literal.

  lemma PassHeaderLabel0()
    ensures |PassColumnHeader| == 65 && PassColumnHeader[0..4] == "Date"
  {
  }

  lemma PassHeaderLabel1()
    ensures |PassColumnHeader| == 65 && PassColumnHeader[9..12] == "Mag"
  {
  }

  lemma PassHeaderLabel2()
    ensures |PassColumnHeader| == 65 && PassColumnHeader[15..19] == "Time"
  {
  }

  lemma PassHeaderLabel3()
    ensures |PassColumnHeader| == 65 && PassColumnHeader[24..26] == "Al"
  {
  }

  lemma PassHeaderLabel4()
    ensures |PassColumnHeader| == 65 && PassColumnHeader[27..29] == "Az"
  {
  }

  lemma PassHeaderLabel5()
    ensures |PassColumnHeader| == 65 && PassColumnHeader[32..36] == "Time"
  {
  }

  lemma PassHeaderLabel6()
    ensures |PassColumnHeader| == 65 && PassColumnHeader[41..43] == "Al"
  {
  }

  lemma PassHeaderLabel7()
    ensures |PassColumnHeader| == 65 && PassColumnHeader[44..46] == "Az"
  {
  }

  lemma PassHeaderLabel8()
    ensures |PassColumnHeader| == 65 && PassColumnHeader[49..53] == "Time"
  {
  }

  lemma PassHeaderLabel9()
    ensures |PassColumnHeader| == 65 && PassColumnHeader[58..60] == "Al"
  {
  }

  lemma PassHeaderLabel10()
    ensures |PassColumnHeader| == 65 && PassColumnHeader[61..63] == "Az"
  {
  }

  /** Every pass line whose values fit has each value at the column where the
      header has that column's label, and is as long as the header. */
  lemma PassColumnsAligned(p: Pass, k: nat)
    requires PassFits(p) && k < 11
    ensures |PassLine(p)| == |PassColumnHeader| == 65
    ensures var c := NominalColumn(PassWidths, PassSeps, k);
      && c + |PassValues(p)[k]| <= |PassLine(p)|
      && c + |PassLabels[k]| <= |PassColumnHeader|
      && PassLine(p)[c..c + |PassValues(p)[k]|] == PassValues(p)[k]
      && PassColumnHeader[c..c + |PassLabels[k]|] == PassLabels[k]
  {
    PassLineColumns(p, k);
    PassHeaderColumns(k);
  }

  lemma PassLineColumns(p: Pass, k: nat)
    requires PassFits(p) && k < 11
    ensures |PassLine(p)| == 65
    ensures var c := NominalColumn(PassWidths, PassSeps, k);
      && c + |PassValues(p)[k]| <= |PassLine(p)|
      && PassLine(p)[c..c + |PassValues(p)[k]|] == PassValues(p)[k]
  {
    PassLineLength(p);
    PassLineValueAt(p, k);
  }

  /** A pass line whose values fit is 65 characters. */
  lemma PassLineLength(p: Pass)
    requires PassFits(p)
    ensures |PassLine(p)| == 65
  {
    PassLineFlat(p);
    PassNominalColumns();
    FormatLength(PassValues(p), PassWidths, PassSeps);
  }

  lemma PassLineValueAt(p: Pass, k: nat)
    requires PassFits(p) && k < 11
    ensures var c := NominalColumn(PassWidths, PassSeps, k);
      && c + |PassValues(p)[k]| <= |PassLine(p)|
      && PassLine(p)[c..c + |PassValues(p)[k]|] == PassValues(p)[k]
  {
    PassLineFlat(p);
    FormatFieldAt(PassValues(p), PassWidths, PassSeps, k);
  }

  lemma PassHeaderColumns(k: nat)
    requires k < 11
    ensures |PassColumnHeader| == 65
    ensures var c := NominalColumn(PassWidths, PassSeps, k);
      && c + |PassLabels[k]| <= |PassColumnHeader|
      && PassColumnHeader[c..c + |PassLabels[k]|] == PassLabels[k]
  {
    PassNominalColumns();
    PassHeaderLabels();
  }

  /** "Start", "Peak" and "End" stand above the first value of the start,
      peak and end time-sets of a line whose values fit. */
  lemma PassBannerAligned()
    ensures NominalColumn(PassWidths, PassSeps, 2) == 15 && PassBanner[15..20] == "Start"
    ensures NominalColumn(PassWidths, PassSeps, 5) == 32 && PassBanner[32..36] == "Peak"
    ensures NominalColumn(PassWidths, PassSeps, 8) == 49 && PassBanner[49..52] == "End"
  {
  }

  /** With values that fit, a flare line is 69 characters with value `k` at
      the nominal column `k` of the flare format. */
  lemma FlareLineColumns(f: Flare, k: nat)
    requires FlareFits(f) && k < 8
    ensures |FlareLine(f)| == 69
    ensures var c := NominalColumn(FlareWidths, FlareSeps, k);
      && c + |FlareValues(f)[k]| <= |FlareLine(f)|
      && FlareLine(f)[c..c + |FlareValues(f)[k]|] == FlareValues(f)[k]
  {
    FlareNominalColumns();
    FormatLength(FlareValues(f), FlareWidths, FlareSeps);
    FormatFieldAt(FlareValues(f), FlareWidths, FlareSeps, k);
  }

  /** The flare header does not follow the flare format: "Time", "Mag" and
      "Al" begin at the columns of their values, but "Az", "Satellite" and
      "Dst. Cntr." begin one column to the right of theirs, and "CMag" and
      "SAl" three columns to the right. */
  lemma FlareHeaderOffsets()
    ensures |FlareColumnHeader| == 72 && NominalColumn(FlareWidths, FlareSeps, 8) == 69
    ensures NominalColumn(FlareWidths, FlareSeps, 0) == 0 && FlareColumnHeader[0..4] == "Time"
    ensures NominalColumn(FlareWidths, FlareSeps, 1) == 17 && FlareColumnHeader[17..20] == "Mag"
    ensures NominalColumn(FlareWidths, FlareSeps, 2) == 23 && FlareColumnHeader[23..25] == "Al"
    ensures NominalColumn(FlareWidths, FlareSeps, 3) == 26 && FlareColumnHeader[27..29] == "Az"
    ensures NominalColumn(FlareWidths, FlareSeps, 4) == 37 && FlareColumnHeader[38..47] == "Satellite"
    ensures NominalColumn(FlareWidths, FlareSeps, 5) == 49 && FlareColumnHeader[50..60] == "Dst. Cntr."
    ensures NominalColumn(FlareWidths, FlareSeps, 6) == 60 && FlareColumnHeader[63..67] == "CMag"
    ensures NominalColumn(FlareWidths, FlareSeps, 7) == 65 && FlareColumnHeader[68..71] == "SAl"
  {
    FlareNominalColumns();
    FlareHeaderLabels();
  }

  /** The columns at which the flare format puts its eight values when they fit. */
  lemma FlareNominalColumns()
    ensures NominalColumn(FlareWidths, FlareSeps, 0) == 0
    ensures NominalColumn(FlareWidths, FlareSeps, 1) == 17
    ensures NominalColumn(FlareWidths, FlareSeps, 2) == 23
    ensures NominalColumn(FlareWidths, FlareSeps, 3) == 26
    ensures NominalColumn(FlareWidths, FlareSeps, 4) == 37
    ensures NominalColumn(FlareWidths, FlareSeps, 5) == 49
    ensures NominalColumn(FlareWidths, FlareSeps, 6) == 60
    ensures NominalColumn(FlareWidths, FlareSeps, 7) == 65
    ensures NominalColumn(FlareWidths, FlareSeps, 8) == 69
  {
  }

  /** The labels of the flare header and where they begin. */
  lemma FlareHeaderLabels()
    ensures |FlareColumnHeader| == 72
    ensures FlareColumnHeader[0..4] == "Time"
    ensures FlareColumnHeader[17..20] == "Mag"
    ensures FlareColumnHeader[23..25] == "Al"
    ensures FlareColumnHeader[27..29] == "Az"
    ensures FlareColumnHeader[38..47] == "Satellite"
    ensures FlareColumnHeader[50..60] == "Dst. Cntr."
    ensures FlareColumnHeader[63..67] == "CMag"
    ensures FlareColumnHeader[68..71] == "SAl"
  {
    FlareHeaderLabel0();
    FlareHeaderLabel1();
    FlareHeaderLabel2();
    FlareHeaderLabel3();
    FlareHeaderLabel4();
    FlareHeaderLabel5();
    FlareHeaderLabel6();
    FlareHeaderLabel7();
  }

  // One lemma per label of the header: each checks one slice of the literal.

  lemma FlareHeaderLabel0()
    ensures |FlareColumnHeader| == 72 && FlareColumnHeader[0..4] == "Time"
  {
  }

  lemma FlareHeaderLabel1()
    ensures |FlareColumnHeader| == 72 && FlareColumnHeader[17..20] == "Mag"
  {
  }

  lemma FlareHeaderLabel2()
    ensures |FlareColumnHeader| == 72 && FlareColumnHeader[23..25] == "Al"
  {
  }

  lemma FlareHeaderLabel3()
    ensures |FlareColumnHeader| == 72 && FlareColumnHeader[27..29] == "Az"
  {
  }

  lemma FlareHeaderLabel4()
    ensures |FlareColumnHeader| == 72 && FlareColumnHeader[38..47] == "Satellite"
  {
  }

  lemma FlareHeaderLabel5()
    ensures |FlareColumnHeader| == 72 && FlareColumnHeader[50..60] == "Dst. Cntr."
  {
  }

  lemma FlareHeaderLabel6()
    ensures |FlareColumnHeader| == 72 && FlareColumnHeader[63..67] == "CMag"
  {
  }

  lemma FlareHeaderLabel7()
    ensures |FlareColumnHeader| == 72 && FlareColumnHeader[68..71] == "SAl"
  {
  }

  // ---------------------------------------------------------------------
  // Line structure
  // ---------------------------------------------------------------------

  predicate NoBreak(vs: seq<string>)
  {
    forall i :: 0 <= i < |vs| ==> '\n' !in vs[i]
  }

  /** A pass line begins with the date and ends with a line break; with
      values free of line breaks that is its only line break. */
  lemma PassLineShape(p: Pass)
    ensures PassLine(p)[..|p.date|] == p.date
    ensures |PassLine(p)| > 0 && PassLine(p)[|PassLine(p)| - 1] == '\n'
    ensures NoBreak(PassValues(p)) ==> OneLine(PassLine(p))
  {
    var g := Format(PassValues(p), PassWidths, PassSeps);
    PassLineFlat(p);
    FieldValueAt(g, 0);
    assert g[..0] == [];
    FieldAt(g, 10);
    RenderLength(g);
    ColumnNext(g, 10);
    assert g[..11] == g;
    if NoBreak(PassValues(p)) {
      RenderOneLine(g);
    }
  }

  /** A flare line begins with the time and ends with a line break; with
      values free of line breaks it is exactly one line. */
  lemma FlareLineShape(f: Flare)
    ensures FlareLine(f)[..|f.time|] == f.time
    ensures |FlareLine(f)| > 0 && FlareLine(f)[|FlareLine(f)| - 1] == '\n'
    ensures NoBreak(FlareValues(f)) ==> OneLine(FlareLine(f))
  {
    var fs := FlareFields(f);
    FieldValueAt(fs, 0);
    assert fs[..0] == [];
    FieldAt(fs, 7);
    RenderLength(fs);
    ColumnNext(fs, 7);
    assert fs[..8] == fs;
    if NoBreak(FlareValues(f)) {
      RenderOneLine(fs);
    }
  }

  /** A degree sign reaches a pass line only through one of the pass's values. */
  lemma PassLineOmitsDegree(p: Pass)
    requires forall i :: 0 <= i < 11 ==> DEGREE !in PassValues(p)[i]
    ensures DEGREE !in PassLine(p)
  {
    PassLineFlat(p);
    RenderOmits(Format(PassValues(p), PassWidths, PassSeps), DEGREE);
  }

  /** A degree sign reaches a flare line only through one of the flare's values. */
  lemma FlareLineOmitsDegree(f: Flare)
    requires forall i :: 0 <= i < 8 ==> DEGREE !in FlareValues(f)[i]
    ensures DEGREE !in FlareLine(f)
  {
    RenderOmits(FlareFields(f), DEGREE);
  }

  // ---------------------------------------------------------------------
  // Report structure
  // ---------------------------------------------------------------------

  /** With no lines a report is its header alone. */
  lemma DocumentEmpty(header: string)
    ensures Document(header, []) == header
  {
  }

  /** Further lines are appended after the lines already there. */
  lemma DocumentAppend(header: string, a: seq<string>, b: seq<string>)
    ensures Document(header, a + b) == Document(header, a) + Concat(b)
  {
    ConcatAppend(a, b);
  }

  /** Line `k` follows the header and the lines before it, and the lines
      after it follow it. */
  lemma DocumentOrder(header: string, lines: seq<string>, k: nat)
    requires k < |lines|
    ensures Document(header, lines) == header + Concat(lines[..k]) + lines[k] + Concat(lines[k + 1..])
  {
    ConcatPiece(lines, k);
  }

  /** A header of `n` lines followed by lines of one line each. */
  lemma DocumentLineCount(header: string, n: nat, lines: seq<string>)
    requires Occurrences(header, '\n') == n
    requires forall i :: 0 <= i < |lines| ==> OneLine(lines[i])
    ensures Occurrences(Document(header, lines), '\n') == n + |lines|
  {
    LinesCount(lines);
    OccurrencesAppend(header, Concat(lines), '\n');
  }

  lemma EachLineAppend<T>(a: seq<T>, b: seq<T>, line: T -> string)
    ensures EachLine(a + b, line) == EachLine(a, line) + EachLine(b, line)
  {
    assert forall i :: 0 <= i < |a + b| ==> EachLine(a + b, line)[i] == (EachLine(a, line) + EachLine(b, line))[i];
  }

  /** The lines of the records before and after record `k` are the lines before and after line `k`. */
  lemma EachLineAround<T>(xs: seq<T>, line: T -> string, k: nat)
    requires k < |xs|
    ensures EachLine(xs, line)[..k] == EachLine(xs[..k], line)
    ensures EachLine(xs, line)[k] == line(xs[k])
    ensures EachLine(xs, line)[k + 1..] == EachLine(xs[k + 1..], line)
  {
  }

  lemma PassLinesAppend(a: seq<Pass>, b: seq<Pass>)
    ensures PassLines(a + b) == PassLines(a) + PassLines(b)
  {
    EachLineAppend(a, b, PassLine);
  }

  lemma FlareLinesAppend(a: seq<Flare>, b: seq<Flare>)
    ensures FlareLines(a + b) == FlareLines(a) + FlareLines(b)
  {
    EachLineAppend(a, b, FlareLine);
  }

  /** With no passes a satellite report is its header alone. */
  lemma SatelliteTextEmpty(s: Satellite)
    requires s.passes == []
    ensures SatelliteText(s) == SatelliteHeader(s.name, s.number)
  {
    DocumentEmpty(SatelliteHeader(s.name, s.number));
  }

  lemma PrefixThen(a: string, b: string, c: string)
    ensures a <= a + b + c
  {
    assert (a + b + c)[..|a|] == a;
  }

  /** Text that opens with a satellite's title reads as the name, then the
      catalogue number in parentheses, which reads back as the number. */
  lemma TitleReads(name: string, number: int, t: string)
    requires SatelliteTitle(name, number) <= t
    ensures var n := IntToString(number);
      && |name| + 3 + |n| <= |t|
      && t[..|name|] == name
      && t[|name|..|name| + 2] == " ("
      && IsIntText(t[|name| + 2..|name| + 2 + |n|])
      && IntValue(t[|name| + 2..|name| + 2 + |n|]) == number
      && t[|name| + 2 + |n|] == ')'
  {
    var n := IntToString(number);
    var title := SatelliteTitle(name, number);
    assert t[..|title|] == title;
    TitleParts(name, n, t);
    IntToStringRoundTrip(number);
  }

  lemma TitleParts(name: string, n: string, t: string)
    requires name + " (" + n + ")\n" <= t
    ensures |name| + 3 + |n| <= |t|
    ensures t[..|name|] == name
    ensures t[|name|..|name| + 2] == " ("
    ensures t[|name| + 2..|name| + 2 + |n|] == n
    ensures t[|name| + 2 + |n|] == ')'
  {
    var title := name + " (" + n + ")\n";
    var pre := t[..|title|];
    assert pre == title;
    assert t[..|name|] == pre[..|name|];
    assert t[|name|..|name| + 2] == pre[|name|..|name| + 2];
    assert t[|name| + 2..|name| + 2 + |n|] == pre[|name| + 2..|name| + 2 + |n|];
    assert t[|name| + 2 + |n|] == pre[|name| + 2 + |n|];
  }

  /** The report opens with the satellite's title, so it reads as the name
      and then the catalogue number in parentheses (`TitleReads`). */
  lemma SatelliteTextTitle(s: Satellite)
    ensures SatelliteTitle(s.name, s.number) <= SatelliteText(s)
  {
    var title := SatelliteTitle(s.name, s.number);
    PrefixThen(title, PassBanner + PassColumnHeader, Concat(PassLines(s.passes)));
  }

  /** Adding passes to the end of the list appends their lines to the report. */
  lemma SatelliteTextAppend(s: Satellite, more: seq<Pass>)
    ensures SatelliteText(s.(passes := s.passes + more)) == SatelliteText(s) + Concat(PassLines(more))
  {
    PassLinesAppend(s.passes, more);
    DocumentAppend(SatelliteHeader(s.name, s.number), PassLines(s.passes), PassLines(more));
  }

  /** The line of pass `k` follows the header and the lines of the passes before it. */
  lemma SatelliteTextOrder(s: Satellite, k: nat)
    requires k < |s.passes|
    ensures SatelliteText(s) == SatelliteHeader(s.name, s.number) + Concat(PassLines(s.passes[..k]))
                               + PassLine(s.passes[k]) + Concat(PassLines(s.passes[k + 1..]))
  {
    var ls := PassLines(s.passes);
    EachLineAround(s.passes, PassLine, k);
    DocumentOrder(SatelliteHeader(s.name, s.number), ls, k);
  }

  /** The title is one line when the name holds no line break. */
  lemma SatelliteTitleOneLine(name: string, number: int)
    requires '\n' !in name
    ensures OneLine(SatelliteTitle(name, number))
  {
    var t := SatelliteTitle(name, number);
    var n := IntToString(number);
    assert t[..|t| - 1] == name + " (" + n + ")";
    assert '\n' !in n;
  }

  /** When every line holds exactly one line break, so do the lines joined. */
  lemma LinesCount(ls: seq<string>)
    requires forall i :: 0 <= i < |ls| ==> OneLine(ls[i])
    ensures Occurrences(Concat(ls), '\n') == |ls|
  {
    forall i | 0 <= i < |ls|
      ensures Occurrences(ls[i], '\n') == 1
    {
      OneLineCount(ls[i]);
    }
    ConcatCount(ls, '\n');
  }

  /** Pass lines with values free of line breaks are one line each. */
  lemma PassLinesOneLine(ps: seq<Pass>)
    requires forall i :: 0 <= i < |ps| ==> NoBreak(PassValues(ps[i]))
    ensures forall i :: 0 <= i < |ps| ==> OneLine(PassLines(ps)[i])
  {
    forall i | 0 <= i < |ps|
      ensures OneLine(PassLines(ps)[i])
    {
      PassLineShape(ps[i]);
    }
  }

  /** The banner is one line. */
  lemma PassBannerBreaks()
    ensures Occurrences(PassBanner, '\n') == 1
  {
    OneLineAfter("               " + "Start            " + "Peak             ", "End\n");
    OneLineCount(PassBanner);
  }

  /** The column labels are one line. */
  lemma PassColumnHeaderBreaks()
    ensures Occurrences(PassColumnHeader, '\n') == 1
  {
    OneLineAfter("Date     " + "Mag   " + "Time     " + "Al " + "Az   " + "Time     " + "Al " + "Az   "
                 + "Time     " + "Al ", "Az \n");
    OneLineCount(PassColumnHeader);
  }

  /** The header of a satellite report is three lines when the name holds no line break. */
  lemma SatelliteHeaderBreaks(name: string, number: int)
    requires '\n' !in name
    ensures Occurrences(SatelliteHeader(name, number), '\n') == 3
  {
    var title := SatelliteTitle(name, number);
    SatelliteTitleOneLine(name, number);
    OneLineCount(title);
    PassBannerBreaks();
    PassColumnHeaderBreaks();
    OccurrencesAppend(title, PassBanner, '\n');
    OccurrencesAppend(title + PassBanner, PassColumnHeader, '\n');
  }

  /** With no line breaks in the name or the values, a satellite report has
      three header lines and one line per pass. */
  lemma SatelliteTextLineCount(s: Satellite)
    requires '\n' !in s.name
    requires forall i :: 0 <= i < |s.passes| ==> NoBreak(PassValues(s.passes[i]))
    ensures Occurrences(SatelliteText(s), '\n') == 3 + |s.passes|
  {
    PassLinesOneLine(s.passes);
    SatelliteHeaderBreaks(s.name, s.number);
    DocumentLineCount(SatelliteHeader(s.name, s.number), 3, PassLines(s.passes));
  }

  /** With no flares the flare report is its header alone. */
  lemma IridiumTextEmpty(ir: Iridium)
    requires ir.flares == []
    ensures IridiumText(ir) == FlareColumnHeader
  {
    DocumentEmpty(FlareColumnHeader);
  }

  /** Adding flares to the end of the list appends their lines to the report. */
  lemma IridiumTextAppend(ir: Iridium, more: seq<Flare>)
    ensures IridiumText(Iridium(ir.flares + more)) == IridiumText(ir) + Concat(FlareLines(more))
  {
    FlareLinesAppend(ir.flares, more);
    DocumentAppend(FlareColumnHeader, FlareLines(ir.flares), FlareLines(more));
  }

  /** The line of flare `k` follows the header and the lines of the flares before it. */
  lemma IridiumTextOrder(ir: Iridium, k: nat)
    requires k < |ir.flares|
    ensures IridiumText(ir) == FlareColumnHeader + Concat(FlareLines(ir.flares[..k]))
                               + FlareLine(ir.flares[k]) + Concat(FlareLines(ir.flares[k + 1..]))
  {
    var ls := FlareLines(ir.flares);
    EachLineAround(ir.flares, FlareLine, k);
    DocumentOrder(FlareColumnHeader, ls, k);
  }

  /** Flare lines with values free of line breaks are one line each. */
  lemma FlareLinesOneLine(fs: seq<Flare>)
    requires forall i :: 0 <= i < |fs| ==> NoBreak(FlareValues(fs[i]))
    ensures forall i :: 0 <= i < |fs| ==> OneLine(FlareLines(fs)[i])
  {
    forall i | 0 <= i < |fs|
      ensures OneLine(FlareLines(fs)[i])
    {
      FlareLineShape(fs[i]);
    }
  }

  /** The flare header is one line. */
  lemma FlareHeaderBreaks()
    ensures Occurrences(FlareColumnHeader, '\n') == 1
  {
    OneLineAfter("Time             " + "Mag   " + "Al  " + "Az         " + "Satellite   " + "Dst. Cntr.   "
                 + "CMag ", "SAl\n");
    OneLineCount(FlareColumnHeader);
  }

  /** With no line breaks in the values, the flare report has one header line
      and one line per flare. */
  lemma IridiumTextLineCount(ir: Iridium)
    requires forall i :: 0 <= i < |ir.flares| ==> NoBreak(FlareValues(ir.flares[i]))
    ensures Occurrences(IridiumText(ir), '\n') == 1 + |ir.flares|
  {
    FlareLinesOneLine(ir.flares);
    FlareHeaderBreaks();
    DocumentLineCount(FlareColumnHeader, 1, FlareLines(ir.flares));
  }
}

=== FILE: retrieve.dfy ===
/** The row loops of `Satellite.retrieve` and `Iridium.retrieve`: every
    selected table row, in document order, becomes one record. Fetching the
    page and selecting the rows are outside the model; the rows arrive as
    the text of their cells. A row that cannot be parsed raises in Python,
    which abandons the whole retrieval, so the result is all records or the
    first row's error. */
module Retrieve {
  import opened Wrappers
  import opened Records
  import opened Extract

  /** Parses every row in order, stopping at the first row that fails. */
  method ParseRows<T>(rows: seq<seq<string>>, parse: seq<string> -> Result<T, ParseError>)
    returns (r: Result<seq<T>, ParseError>)
    ensures r.Ok? <==> forall i :: 0 <= i < |rows| ==> parse(rows[i]).Ok?
    ensures r.Ok? ==> |r.value| == |rows|
    ensures r.Ok? ==> forall i :: 0 <= i < |rows| ==> parse(rows[i]) == Ok(r.value[i])
    ensures r.Err? ==> exists k :: 0 <= k < |rows| && parse(rows[k]) == Err(r.error)
                                 && forall i :: 0 <= i < k ==> parse(rows[i]).Ok?
  {
    var records: seq<T> := [];
    var n := 0;
    while n < |rows|
      invariant 0 <= n <= |rows|
      invariant |records| == n
      invariant forall i :: 0 <= i < n ==> parse(rows[i]) == Ok(records[i])
    {
      var one := parse(rows[n]);
      if one.Err? {
        return Err(one.error);
      }
      records := records + [one.value];
      n := n + 1;
    }
    return Ok(records);
  }

  /** The passes of `Satellite.retrieve`, one per row and in row order; the
      first row with fewer than eleven cells is reported instead. */
  method RetrievePasses(rows: seq<seq<string>>) returns (r: Result<seq<Pass>, ParseError>)
    ensures r.Ok? <==> forall i :: 0 <= i < |rows| ==> |rows[i]| >= PassCellCount
    ensures r.Ok? ==> |r.value| == |rows|
    ensures r.Ok? ==> forall i :: 0 <= i < |rows| ==> ParsePass(rows[i]) == Ok(r.value[i])
    ensures r.Err? ==> exists k :: 0 <= k < |rows| && r.error == TooFewCells(PassCellCount, |rows[k]|)
                                 && |rows[k]| < PassCellCount
                                 && forall i :: 0 <= i < k ==> |rows[i]| >= PassCellCount
  {
    r := ParseRows(rows, ParsePass);
  }

  /** The flares of `Iridium.retrieve`, one per row and in row order; the
      first row with fewer than eight cells is reported instead. */
  method RetrieveFlares(rows: seq<seq<string>>) returns (r: Result<seq<Flare>, ParseError>)
    ensures r.Ok? <==> forall i :: 0 <= i < |rows| ==> |rows[i]| >= FlareCellCount
    ensures r.Ok? ==> |r.value| == |rows|
    ensures r.Ok? ==> forall i :: 0 <= i < |rows| ==> ParseFlare(rows[i]) == Ok(r.value[i])
    ensures r.Err? ==> exists k :: 0 <= k < |rows| && r.error == TooFewCells(FlareCellCount, |rows[k]|)
                                 && |rows[k]| < FlareCellCount
                                 && forall i :: 0 <= i < k ==> |rows[i]| >= FlareCellCount
  {
    r := ParseRows(rows, ParseFlare);
  }

  /** A satellite with its passes, as the `Satellite` constructor leaves it
      once its retrieval succeeds; otherwise the first short row's error,
      which the constructor would raise. */
  method RetrieveSatellite(name: string, number: int, rows: seq<seq<string>>)
    returns (r: Result<Satellite, ParseError>)
    ensures r.Ok? <==> forall i :: 0 <= i < |rows| ==> |rows[i]| >= PassCellCount
    ensures r.Ok? ==> r.value.name == name && r.value.number == number
    ensures r.Ok? ==> |r.value.passes| == |rows|
                      && forall i :: 0 <= i < |rows| ==> ParsePass(rows[i]) == Ok(r.value.passes[i])
    ensures r.Err? ==> exists k :: 0 <= k < |rows| && r.error == TooFewCells(PassCellCount, |rows[k]|)
                                 && |rows[k]| < PassCellCount
                                 && forall i :: 0 <= i < k ==> |rows[i]| >= PassCellCount
  {
    var passes := RetrievePasses(rows);
    if passes.Err? {
      return Err(passes.error);
    }
    return Ok(Satellite(name, number, passes.value));
  }

  /** The flare list, as the `Iridium` constructor leaves it once its
      retrieval succeeds; otherwise the first short row's error. */
  method RetrieveIridium(rows: seq<seq<string>>) returns (r: Result<Iridium, ParseError>)
    ensures r.Ok? <==> forall i :: 0 <= i < |rows| ==> |rows[i]| >= FlareCellCount
    ensures r.Ok? ==> |r.value.flares| == |rows|
                      && forall i :: 0 <= i < |rows| ==> ParseFlare(rows[i]) == Ok(r.value.flares[i])
    ensures r.Err? ==> exists k :: 0 <= k < |rows| && r.error == TooFewCells(FlareCellCount, |rows[k]|)
                                 && |rows[k]| < FlareCellCount
                                 && forall i :: 0 <= i < k ==> |rows[i]| >= FlareCellCount
  {
    var flares := RetrieveFlares(rows);
    if flares.Err? {
      return Err(flares.error);
    }
    return Ok(Iridium(flares.value));
  }
}

=== FILE: text.dfy ===
/** String operations the scraper relies on: removing the degree sign,
    Python's left-justified padding, in-order concatenation and the decimal
    rendering of an integer. */
module Text {

  /** The degree sign U+00B0 the prediction tables put after angles. */
  const DEGREE: char := '\U{00B0}'

  function Max(a: int, b: int): int
  {
    if a < b then b else a
  }

  /** How many times `c` occurs in `s`. */
  function Occurrences(s: string, c: char): nat
  {
    if |s| == 0 then 0 else (if s[0] == c then 1 else 0) + Occurrences(s[1..], c)
  }

  /** Occurrences in joined text add up. */
  lemma {:induction false} OccurrencesAppend(a: string, b: string, c: char)
    ensures Occurrences(a + b, c) == Occurrences(a, c) + Occurrences(b, c)
    decreases |a|
  {
    if |a| == 0 {
      assert a + b == b;
    } else {
      assert (a + b)[1..] == a[1..] + b;
      OccurrencesAppend(a[1..], b, c);
    }
  }

  /** A character that does not occur in `s` is counted zero times, and back. */
  lemma {:induction false} OccurrencesAbsent(s: string, c: char)
    ensures Occurrences(s, c) == 0 <==> c !in s
    decreases |s|
  {
    if |s| > 0 {
      assert s == [s[0]] + s[1..];
      OccurrencesAbsent(s[1..], c);
    }
  }

  // ---------------------------------------------------------------------
  // Degree-sign removal: Python's s.replace(u'\xb0', '')
  // ---------------------------------------------------------------------

  /** Removes every degree sign from `s`, keeping all other characters in order. */
  function StripDegree(s: string): (r: string)
    ensures DEGREE !in r
    ensures DEGREE !in s ==> r == s
  {
    if |s| == 0 then ""
    else
      assert s == [s[0]] + s[1..];
      if s[0] == DEGREE then StripDegree(s[1..])
      else [s[0]] + StripDegree(s[1..])
  }

  /** Stripping removes exactly the degree signs: the text shrinks by their
      number and every other character occurs as often as before. */
  lemma {:induction false} StripDegreeCounts(s: string)
    ensures |StripDegree(s)| == |s| - Occurrences(s, DEGREE)
    ensures forall c :: c != DEGREE ==> Occurrences(StripDegree(s), c) == Occurrences(s, c)
    decreases |s|
  {
    if |s| > 0 {
      StripDegreeCounts(s[1..]);
      var rest := StripDegree(s[1..]);
      if s[0] != DEGREE {
        assert StripDegree(s) == [s[0]] + rest;
        assert ([s[0]] + rest)[1..] == rest;
      }
    }
  }

  /** Stripping works piecewise: it is a homomorphism of concatenation. */
  lemma {:induction false} StripDegreeAppend(a: string, b: string)
    ensures StripDegree(a + b) == StripDegree(a) + StripDegree(b)
    decreases |a|
  {
    if |a| == 0 {
      assert a + b == b;
    } else {
      assert (a + b)[1..] == a[1..] + b;
      StripDegreeAppend(a[1..], b);
    }
  }

  /** A degree sign anywhere in the text is dropped and nothing else changes. */
  lemma StripDegreeDropsGlyph(a: string, b: string)
    ensures StripDegree(a + [DEGREE] + b) == StripDegree(a + b)
    ensures DEGREE !in a && DEGREE !in b ==> StripDegree(a + [DEGREE] + b) == a + b
  {
    assert [DEGREE][1..] == [];
    assert StripDegree([DEGREE]) == "";
    calc {
      StripDegree(a + [DEGREE] + b);
      { StripDegreeAppend(a + [DEGREE], b); }
      StripDegree(a + [DEGREE]) + StripDegree(b);
      { StripDegreeAppend(a, [DEGREE]); }
      StripDegree(a) + StripDegree(b);
      { StripDegreeAppend(a, b); }
      StripDegree(a + b);
    }
  }

  /** Stripping twice is stripping once. */
  lemma StripDegreeIdempotent(s: string)
    ensures StripDegree(StripDegree(s)) == StripDegree(s)
  {
  }

  // ---------------------------------------------------------------------
  // Left-justified padding: Python's "{: <n}".format(s)
  // ---------------------------------------------------------------------

  function Spaces(n: nat): string
  {
    seq(n, _ => ' ')
  }

  /** Left-justifies `s` in a field of width `n`: spaces are added on the
      right up to `n` characters, and a longer value is never truncated. */
  function PadRight(s: string, n: nat): (r: string)
    ensures |r| == Max(n, |s|)
    ensures r[..|s|] == s
    ensures forall i :: |s| <= i < |r| ==> r[i] == ' '
  {
    if |s| >= n then s else s + Spaces(n - |s|)
  }

  /** Value, then only spaces, up to the field width: that determines the padding. */
  lemma PadRightUnique(s: string, n: nat, r: string)
    requires |r| == Max(n, |s|)
    requires r[..|s|] == s
    requires forall i :: |s| <= i < |r| ==> r[i] == ' '
    ensures r == PadRight(s, n)
  {
    var p := PadRight(s, n);
    assert |p| == |r|;
    forall i | 0 <= i < |r|
      ensures r[i] == p[i]
    {
      if i < |s| {
        assert r[i] == r[..|s|][i];
        assert p[i] == p[..|s|][i];
      }
    }
  }

  // ---------------------------------------------------------------------
  // In-order concatenation: the `output += piece` loops
  // ---------------------------------------------------------------------

  /** The pieces joined in order. The loops accumulate from the left
      (`output += piece`); joining is associative, so folding from the right
      gives the same text. */
  function Concat(ss: seq<string>): string
  {
    if |ss| == 0 then "" else ss[0] + Concat(ss[1..])
  }

  lemma {:induction false} ConcatAppend(a: seq<string>, b: seq<string>)
    ensures Concat(a + b) == Concat(a) + Concat(b)
    decreases |a|
  {
    if |a| == 0 {
      assert a + b == b;
    } else {
      assert (a + b)[1..] == a[1..] + b;
      ConcatAppend(a[1..], b);
    }
  }

  /** Appending one piece extends the joined text by that piece, as `output += piece` does. */
  lemma ConcatSnoc(ss: seq<string>, s: string)
    ensures Concat(ss + [s]) == Concat(ss) + s
  {
    ConcatAppend(ss, [s]);
    assert [s][1..] == [];
  }

  /** Piece `k` sits in the joined text right after the pieces before it. */
  lemma ConcatPiece(ss: seq<string>, k: nat)
    requires k < |ss|
    ensures Concat(ss) == Concat(ss[..k]) + ss[k] + Concat(ss[k + 1..])
  {
    assert ss == ss[..k] + ss[k..];
    ConcatAppend(ss[..k], ss[k..]);
    assert ss[k..][1..] == ss[k + 1..];
  }

  /** When every piece holds exactly one `c`, the joined text holds one per piece. */
  lemma {:induction false} ConcatCount(ss: seq<string>, c: char)
    requires forall i :: 0 <= i < |ss| ==> Occurrences(ss[i], c) == 1
    ensures Occurrences(Concat(ss), c) == |ss|
    decreases |ss|
  {
    if |ss| > 0 {
      var rest := ss[1..];
      forall i | 0 <= i < |rest|
        ensures Occurrences(rest[i], c) == 1
      {
        assert rest[i] == ss[i + 1];
      }
      ConcatCount(rest, c);
      OccurrencesAppend(ss[0], Concat(rest), c);
    }
  }

  // ---------------------------------------------------------------------
  // Decimal rendering of an integer: Python's str(n) / "{}".format(n)
  // ---------------------------------------------------------------------

  predicate IsDigit(c: char)
  {
    '0' <= c <= '9'
  }

  function DigitChar(d: nat): (c: char)
    requires d < 10
    ensures IsDigit(c)
  {
    ('0' as int + d) as char
  }

  function DigitValue(c: char): nat
    requires IsDigit(c)
  {
    c as int - '0' as int
  }

  predicate AllDigits(s: string)
  {
    forall i :: 0 <= i < |s| ==> IsDigit(s[i])
  }

  /** Decimal digits of `n`, most significant first, with no leading zero. */
  function NatToString(n: nat): (r: string)
    ensures |r| >= 1
    ensures AllDigits(r)
    ensures r[0] == '0' ==> n == 0
    decreases n
  {
    if n < 10 then [DigitChar(n)] else NatToString(n / 10) + [DigitChar(n % 10)]
  }

  /** The number a string of decimal digits denotes. */
  function DecimalValue(s: string): nat
    requires AllDigits(s)
  {
    if |s| == 0 then 0
    else DecimalValue(s[..|s| - 1]) * 10 + DigitValue(s[|s| - 1])
  }

  lemma {:induction false} NatToStringRoundTrip(n: nat)
    ensures DecimalValue(NatToString(n)) == n
    decreases n
  {
    if n >= 10 {
      var r := NatToString(n);
      NatToStringRoundTrip(n / 10);
      assert r[..|r| - 1] == NatToString(n / 10);
    }
  }

  /** Python's str of an int: an optional minus sign, then the digits. */
  function IntToString(i: int): (r: string)
    ensures |r| >= 1
    ensures r[0] == '-' <==> i < 0
    ensures AllDigits(if i < 0 then r[1..] else r)
    ensures forall j :: 0 <= j < |r| ==> IsDigit(r[j]) || (j == 0 && r[j] == '-')
    ensures var d := if i < 0 then r[1..] else r; |d| >= 1 && (d[0] == '0' ==> i == 0)
  {
    if i < 0 then "-" + NatToString(-i) else NatToString(i)
  }

  predicate IsIntText(s: string)
  {
    if |s| > 0 && s[0] == '-' then AllDigits(s[1..]) else AllDigits(s)
  }

  /** The integer an optionally signed decimal text denotes. */
  function IntValue(s: string): int
    requires IsIntText(s)
  {
    if |s| > 0 && s[0] == '-' then 0 - DecimalValue(s[1..]) else DecimalValue(s)
  }

  /** Reading back the rendering of an integer gives the integer. */
  lemma IntToStringRoundTrip(i: int)
    ensures IsIntText(IntToString(i))
    ensures IntValue(IntToString(i)) == i
  {
    if i < 0 {
      NatToStringRoundTrip(-i);
      assert IntToString(i)[1..] == NatToString(-i);
    } else {
      NatToStringRoundTrip(i);
    }
  }

  /** Different integers render differently. */
  lemma IntToStringInjective(i: int, j: int)
    requires IntToString(i) == IntToString(j)
    ensures i == j
  {
    IntToStringRoundTrip(i);
    IntToStringRoundTrip(j);
  }
}

=== FILE: wrappers.dfy ===
/** Failure-carrying results, used where the Python code would raise. */
module Wrappers {

  /** Either a value or the error that stopped its computation. */
  datatype Result<+T, +E> = Ok(value: T) | Err(error: E)
}
